=== FILE: README.md ===
# Authentication screens: form-handler model

This project models, in Dafny, the client-side state logic of the
authentication screens of a React single-page application that signs users in
against a hosted identity provider:

- the application shell's choice between a loading spinner, the dashboard and
  the sign-in form;
- the combined sign-in / registration form;
- the password-reset request form;
- the set-new-password page reached from the emailed reset link, with its
  link-validity gate and its validation order;
- the two-factor (TOTP) dialog: listing enrolled factors, the
  `setup → verify` enrolment machine, the six-digit code filter, and the
  confirm-gated removal of a factor.

Every handler that awaits a provider call is a pure function from the
component state to a `Forms.Handled` record. It holds the state while the
provider call is outstanding, the call issued (if any), the state once the
call settled, and any deferred effect requested (reload the factor list, close
the dialog, redirect home). Handlers that make no call (`AuthForm.Toggle`,
`MfaSetup.CodeTyped`, `MfaSetup.FactorsLoaded`, `ResetPassword.SessionProbed`)
return the new state directly. The provider is not modelled. Its answer is an
input of type `Forms.Outcome`: `Ok(data)`, `Err(message)` with the provider's
own message text, or `Threw` for an exception escaping the awaited call. The
browser's `confirm()` answer is a boolean input. A session probe's result is a
boolean "session present". JavaScript string length counts UTF-16 code units,
and `Forms.Utf16Length` computes that length explicitly.

Every form also gets an event-level model (`Apply`, `Run` and `Requests`,
the last pairing each provider call with the state it was made from). An
event for a control that is not rendered, or is disabled because the form is
busy, does nothing; an event for an enabled control runs its handler. This makes it possible to state properties of
whole interaction sequences. Examples: no password update is ever requested
without a live session, every sign-in call carries the credentials entered at
that moment, and a failed code never loses the pending factor.

Facts about the code that shape the model:
- The reset page decides whether the link is valid from session presence
  alone (src/components/ResetPassword.tsx:19-27).
- Error notices carry the provider's message text unchanged
  (src/components/Auth.tsx:22-23, src/components/ForgotPassword.tsx:21-22,
  src/components/MFASetup.tsx:36 and 80), except for a rejected TOTP code,
  which always gets the same fixed text (src/components/MFASetup.tsx:57-58).
- Removing a factor does not change the dialog's factor list directly. It only
  triggers a reload of the list (src/components/MFASetup.tsx:81-83).
- After a successful verification, the list reload and the closing of the
  dialog both happen after a delay, and the step is not changed
  (src/components/MFASetup.tsx:59-64).

## Model

| member | source | states |
|---|---|---|
| Forms.Report | src/components/ForgotPassword.tsx:21-31 | the settled notice is a success exactly when the call returned without error. A reported error shows the provider's text, a thrown call shows the fixed fallback text |
| Forms.Utf16Length | src/components/ResetPassword.tsx:40 | a password's JavaScript length lies between its character count and twice that, and equals the character count when no character lies outside the Basic Multilingual Plane |
| Forms.Utf16LengthOfConcat | src/components/ResetPassword.tsx:40 | the JavaScript length of a concatenation is the sum of the parts' lengths |
| Forms.Utf16LengthOfChar | src/components/ResetPassword.tsx:40 | one character counts two code units exactly when it lies outside the Basic Multilingual Plane, one otherwise |
| TotpCode.Digits | src/components/MFASetup.tsx:166 | removing non-digits yields only decimal digits and never lengthens the input |
| TotpCode.Sanitise | src/components/MFASetup.tsx:166 | the stored code is digits only, at most six long, a prefix of the input's digit subsequence, and exactly min(6, number of digits) long |
| TotpCode.DigitsOfDigitString | src/components/MFASetup.tsx:166 | removing non-digits leaves a digit string unchanged |
| TotpCode.DigitsOfConcat | src/components/MFASetup.tsx:166 | digit extraction distributes over concatenation, so it keeps exactly the input's digits, in order |
| TotpCode.DigitsOfChar | src/components/MFASetup.tsx:166 | a single character is kept exactly when it is a digit |
| TotpCode.SanitiseIdempotent | src/components/MFASetup.tsx:166 | sanitising an already sanitised code changes nothing |
| TotpCode.SanitiseFixesExactlyCodes | src/components/MFASetup.tsx:166 | the filter leaves a value unchanged if and only if it is a well-formed code (digits only, at most six) |
| AppShell.SelectScreen | src/App.tsx:9-22 | loading shows the spinner whatever the user. Once loaded, a present user gets the dashboard and an absent one the sign-in form. Each screen is chosen in exactly its own case |
| AppShell.LoadingIgnoresUser | src/App.tsx:9-19 | while loading, any two users yield the same spinner screen |
| AppShell.ScreenDependsOnPresenceOnly | src/App.tsx:22 | the chosen screen depends only on whether a user is present, not on which user |
| AuthForm.CallFor | src/components/Auth.tsx:20-28 | login mode calls only sign-in and registration mode only sign-up, both with the entered email and password |
| AuthForm.Submit | src/components/Auth.tsx:14-43 | the notice is cleared and the busy flag raised while awaiting. The settled notice is an error carrying the provider text on a reported error and the generic text on a throw. A success gets the mode's own text (logged in / confirmation pending). The busy flag is lowered and the fields are kept |
| AuthForm.Toggle | src/components/Auth.tsx:91-94 | the mode flips and the notice is cleared. Email, password and busy flag are unchanged |
| AuthForm.ToggleTwice | src/components/Auth.tsx:91-94 | toggling twice returns to the original form with the notice cleared |
| AuthForm.ErrorIndependentOfMode | src/components/Auth.tsx:22-30 | a provider error produces the same settled form in either mode, apart from the mode itself |
| AuthForm.Apply | src/components/Auth.tsx:50-96 | a call is made if and only if the form is submitted while not busy, and it is the mode's call with the current credentials. While idle, a submit runs the submit handler, typing stores the field and the switch toggles the mode. While busy, every event leaves the form unchanged |
| AuthForm.RunKeepsIdle | src/components/Auth.tsx:14-43 | starting idle, the form is not busy after any event sequence |
| AuthForm.InitialNeverBusy | src/components/Auth.tsx:6-43 | from the freshly mounted form, the form is not busy after any event sequence |
| AuthForm.RequestsMatchForm | src/components/Auth.tsx:20-28 | over any event sequence, every call is made from an idle form and is the sign-in or sign-up of the mode and credentials current at that submit |
| ForgotPasswordForm.Submit | src/components/ForgotPassword.tsx:14-35 | the notice is cleared and the busy flag raised while awaiting, and the reset is requested for the entered address. A reported error shows the provider text and keeps the address. A success shows the sent text and empties the address. A throw shows the generic text. The busy flag always ends lowered |
| ForgotPasswordForm.FailureAllowsResubmit | src/components/ForgotPassword.tsx:19-22 | after a failure, submitting again requests the reset for the same address |
| ForgotPasswordForm.SuccessClearsAddress | src/components/ForgotPassword.tsx:24-28 | after a success, the next submit without re-entering requests the empty address |
| ForgotPasswordForm.Apply | src/components/ForgotPassword.tsx:47-76 | a call is made if and only if the form is submitted while not busy, and it asks for a reset of the current address. While idle, a submit runs the submit handler and typing stores the address. While busy, every event leaves the form unchanged |
| ForgotPasswordForm.RunKeepsIdle | src/components/ForgotPassword.tsx:14-35 | starting idle, the form is not busy after any event sequence |
| ForgotPasswordForm.RequestsMatchForm | src/components/ForgotPassword.tsx:16-20 | over any event sequence, every call is made from an idle form and requests a reset for the address current at that submit |
| ResetPassword.SessionProbed | src/components/ResetPassword.tsx:17-29 | a present session marks the link valid and leaves the notice alone. An absent one sets the invalid-link error and leaves the validity flag as it was |
| ResetPassword.Validate | src/components/ResetPassword.tsx:35-43 | the pair is acceptable if and only if the passwords are equal and at least 6 UTF-16 units long. It is a mismatch if and only if they differ, whatever their length |
| ResetPassword.Submit | src/components/ResetPassword.tsx:31-65 | a call is made if and only if the pair is acceptable, and it updates to the new password. A rejected pair gets its error and no call, with the busy flag unchanged. After a call the settled notice carries the provider's error, the success text or the generic text, and the busy flag is lowered. The redirect is requested exactly on success |
| ResetPassword.MismatchCheckedFirst | src/components/ResetPassword.tsx:35-43 | a mismatched pair reports the mismatch and makes no call, even when also too short |
| ResetPassword.ScreenOf | src/components/ResetPassword.tsx:67-97 | the password form is rendered if and only if the link was found valid |
| ResetPassword.Apply | src/components/ResetPassword.tsx:67-156 | a call is made if and only if an acceptable pair is submitted on the shown password form while not busy. There, a submit runs the submit handler and typing stores the field. On the link-status card, or while busy, typing and submitting leave the state unchanged. The session probe is always applied |
| ResetPassword.RequestsAreValidUpdates | src/components/ResetPassword.tsx:35-48 | over any event sequence, every call is made from the shown, idle password form. It updates to the entered password, which equalled its confirmation and was at least 6 UTF-16 units long |
| ResetPassword.NoUpdateWithoutSession | src/components/ResetPassword.tsx:17-95 | without a probe that found a session, the link stays invalid and no event sequence makes any provider call |
| ResetPassword.NoUpdateFromExpiredLink | src/components/ResetPassword.tsx:17-95 | on a freshly mounted page whose probe finds no session, the link-status card stays up and no later event sequence makes a provider call |
| ResetPassword.ValidLinkStaysValid | src/components/ResetPassword.tsx:13-29 | once the link is valid, no event sequence invalidates it |
| MfaSetup.FactorsLoaded | src/components/MFASetup.tsx:22-27 | only an error-free reply with data replaces the factor list (a missing list becomes empty). Any other reply leaves it unchanged, and nothing else changes |
| MfaSetup.Enroll | src/components/MFASetup.tsx:29-48 | success with data moves to the verify step holding the returned id, secret and QR code. An error keeps the step and factor and shows the provider text. A throw shows the fixed setup error. The busy flag always ends lowered |
| MfaSetup.CodeTyped | src/components/MFASetup.tsx:162-166 | the stored code is always well formed, a well-formed input is stored as typed, and nothing else changes |
| MfaSetup.Verify | src/components/MFASetup.tsx:50-71 | the entered code is submitted for the pending factor. A rejection shows the fixed invalid-code text, whatever the provider said, and keeps step, factor, secret and QR code. Success shows the enabled text and requests the delayed reload and close. The busy flag always ends lowered |
| MfaSetup.RetryTargetsSameFactor | src/components/MFASetup.tsx:56-58 | after a rejected code the step is kept and the next verification targets the same factor with the newly typed code |
| MfaSetup.Unenroll | src/components/MFASetup.tsx:73-90 | a declined confirmation changes nothing and makes no call. A confirmed one removes the given factor and keeps the old notice while awaiting. Only success requests a factor reload. The busy flag always ends lowered |
| MfaSetup.ViewOf | src/components/MFASetup.tsx:92-146 | a non-empty factor list shows the status view whatever the step. Otherwise the step decides between the setup and verify views |
| MfaSetup.Apply | src/components/MFASetup.tsx:92-187 | an event from a control that is hidden or disabled while busy leaves the dialog unchanged and makes no call. Typing and list replies never make a call, and a removal call needs a confirmed press in the status view for a listed factor. An idle enrol press in the setup view always enrols. An idle submit in the verify view always verifies the pending factor with the entered code. Typing there runs the code filter, a removal press runs the removal handler for that factor, and a list reply is always applied |
| MfaSetup.ApplyKeepsSettled | src/components/MFASetup.tsx:29-90 | from an idle state with a well-formed code, every event leaves the dialog idle with a well-formed code |
| MfaSetup.RunKeepsSettled | src/components/MFASetup.tsx:29-90 | the same holds after any sequence of events |
| MfaSetup.VerifyStageKeepsFactor | src/components/MFASetup.tsx:29-71 | once in the verify step, no event sequence leaves it or changes the pending factor, secret or QR code |
| MfaSetup.OnlyListReplyChangesFactors | src/components/MFASetup.tsx:22-92 | events other than a list reply never change the factor list, so after a removal the status view stays up until the reload arrives |
| MfaSetup.EnrolRetryScenario | src/components/MFASetup.tsx:29-90 | for a typed code with at least six digits, the sequence enrol, type, rejected verify, accepted verify, then a list reply naming exactly the new factor: the dialog ends on the status view showing it. The accepted verify requests the delayed reload and close of the dialog. The provider saw one enrolment and two verifications of that factor with the same code |

## Left out

- The session store and auth operations (`src/contexts/AuthContext`): its sign-in, sign-up, sign-out, reset, password-update and TOTP calls are not part of this model. They appear only as the `Forms.Call` issued and the `Forms.Outcome` received. Subscriptions, the initial session probe and its loading flag are not modelled either; the shell takes `loading` and the user as inputs.
- Concurrency: double submits, overlapping calls and which result is written last. Each event is assumed to settle before the next. While busy, the source disables its controls, and `Apply` ignores events in that state.
- Timers and navigation: the 2-second delays, `window.location` redirects, the "back to login" buttons and the dialog's `onClose`. They appear only as the `Forms.Effect` requested.
- A list-factors call or a session probe that rejects: the source attaches no handler, so the state is unchanged. `MfaSetup.FactorsLoaded` treats `Threw` that way, and a rejected probe is simply an event that never arrives.
- Browser constraint validation (`required`, `minLength`, `maxLength`, `pattern`). The browser applies it before `onSubmit` runs, and it is not part of the handlers' code.
- Rendering, styling, the truncated factor-id display (`factor.id.slice(0, 8)`), `LandingPage.tsx` (purely presentational) and `Dashboard.tsx` (a data-fetching screen).

=== FILE: app.dfy ===
/** The top-level screen choice of the application shell (src/App.tsx:6-23):
    a spinner while the initial session probe is outstanding, then the
    dashboard for a signed-in user and the sign-in form otherwise. */
module AppShell {
  import opened Forms

  /** The signed-in user as the session store exposes it; only its presence
      matters here. */
  datatype User = User(id: string, email: string)

  datatype Screen = LoadingScreen | DashboardScreen | AuthScreen

  function SelectScreen(loading: bool, user: Option<User>): (v: Screen)
    ensures v == LoadingScreen <==> loading
    ensures v == DashboardScreen <==> !loading && user.Some?
    ensures v == AuthScreen <==> !loading && user.None?
  {
    if loading then LoadingScreen
    else match user
      case Some(_) => DashboardScreen
      case None => AuthScreen
  }

  /** While loading, who the user is does not influence the screen. */
  lemma LoadingIgnoresUser(u: Option<User>, w: Option<User>)
    ensures SelectScreen(true, u) == SelectScreen(true, w) == LoadingScreen
  {
  }

  /** Once loaded, the screen depends on the user's presence only, not on
      which user it is. */
  lemma ScreenDependsOnPresenceOnly(u: Option<User>, w: Option<User>)
    requires u.Some? == w.Some?
    ensures forall loading: bool :: SelectScreen(loading, u) == SelectScreen(loading, w)
  {
  }
}

=== FILE: auth_form.dfy ===
/** The combined sign-in / registration form (src/components/Auth.tsx). */
module AuthForm {
  import opened Forms

  datatype Mode = Login | Register

  /** The component state: mode, the two fields, the notice and the busy flag. */
  datatype Form = Form(mode: Mode, email: string, password: string, notice: Option<Notice>, busy: bool)

  const Initial := Form(Login, "", "", None, false)

  const LoggedInText := "Erfolgreich eingeloggt!"
  const RegisteredText := "Registrierung erfolgreich! Bitte überprüfe deine E-Mail zur Bestätigung."
  const FailedText := "Ein Fehler ist aufgetreten."

  /** The provider call a submit makes: sign-in in login mode, sign-up in
      registration mode, both with the form's credentials. */
  function CallFor(f: Form): (c: Call)
    ensures c.SignIn? <==> f.mode == Login
    ensures c.SignUp? <==> f.mode == Register
    ensures (c.SignIn? || c.SignUp?) && c.email == f.email && c.password == f.password
  {
    match f.mode
    case Login => SignIn(f.email, f.password)
    case Register => SignUp(f.email, f.password)
  }

  /** `handleSubmit`: clear the notice and raise the busy flag, make the call,
      report its outcome, lower the busy flag. The fields are kept. */
  function Submit(f: Form, o: Outcome<()>): (r: Handled<Form>)
    ensures r.awaiting == f.(notice := None, busy := true)
    ensures r.call == Some(CallFor(f))
    ensures r.effect == NoEffect
    ensures r.settled.mode == f.mode && r.settled.email == f.email && r.settled.password == f.password
    ensures !r.settled.busy
    ensures r.settled.notice.Some?
    ensures r.settled.notice.value.tone == Success <==> o.Ok?
    ensures o.Err? ==> r.settled.notice.value.text == o.message
    ensures o.Ok? && f.mode == Login ==> r.settled.notice.value.text == LoggedInText
    ensures o.Ok? && f.mode == Register ==> r.settled.notice.value.text == RegisteredText
    ensures o.Threw? ==> r.settled.notice.value.text == FailedText
  {
    var awaiting := f.(notice := None, busy := true);
    var success := if f.mode == Login then LoggedInText else RegisteredText;
    Handled(awaiting, Some(CallFor(f)), awaiting.(notice := Some(Report(o, success, FailedText)), busy := false), NoEffect)
  }

  /** The mode switch below the form: flips the mode and clears the notice. */
  function Toggle(f: Form): (r: Form)
    ensures r.mode != f.mode
    ensures r.notice == None
    ensures r.email == f.email && r.password == f.password && r.busy == f.busy
  {
    f.(mode := if f.mode == Login then Register else Login, notice := None)
  }

  /** Switching twice returns to the starting mode with the notice cleared. */
  lemma ToggleTwice(f: Form)
    ensures Toggle(Toggle(f)) == f.(notice := None)
  {
  }

  /** A failing provider produces the same error notice in both modes: the
      mode only decides which call is made and the success text. */
  lemma ErrorIndependentOfMode(f: Form, m: string)
    ensures Submit(f, Err(m)).settled == Submit(Toggle(f), Err(m)).settled.(mode := f.mode)
  {
  }

  /** User events reaching the form. */
  datatype Event =
    | EmailTyped(email: string)
    | PasswordTyped(password: string)
    | Submitted(outcome: Outcome<()>)
    | Toggled

  /** One event handled as the form allows it: both fields, the submit button
      and the mode switch are disabled while busy, so an event then does
      nothing. */
  function Apply(f: Form, e: Event): (r: Handled<Form>)
    ensures r.call.Some? <==> !f.busy && e.Submitted?
    ensures r.call.Some? ==> r.call == Some(CallFor(f))
    ensures f.busy ==> r.settled == f && r.call.None?
    ensures !f.busy && e.Submitted? ==> r == Submit(f, e.outcome)
    ensures !f.busy && e.EmailTyped? ==> r.settled == f.(email := e.email)
    ensures !f.busy && e.PasswordTyped? ==> r.settled == f.(password := e.password)
    ensures !f.busy && e.Toggled? ==> r.settled == Toggle(f)
  {
    var idle := Handled(f, None, f, NoEffect);
    if f.busy then idle
    else match e
      case EmailTyped(v) => var g := f.(email := v); Handled(g, None, g, NoEffect)
      case PasswordTyped(v) => var g := f.(password := v); Handled(g, None, g, NoEffect)
      case Submitted(o) => Submit(f, o)
      case Toggled => var g := Toggle(f); Handled(g, None, g, NoEffect)
  }

  /** The state after a sequence of events, each settling before the next. */
  function Run(f: Form, es: seq<Event>): Form
    decreases |es|
  {
    if |es| == 0 then f else Run(Apply(f, es[0]).settled, es[1..])
  }

  /** The provider calls a sequence of events issues, in order, each paired
      with the form as it stood when the call was made. */
  function Requests(f: Form, es: seq<Event>): seq<(Form, Call)>
    decreases |es|
  {
    if |es| == 0 then []
    else
      var h := Apply(f, es[0]);
      (if h.call.Some? then [(f, h.call.value)] else []) + Requests(h.settled, es[1..])
  }

  /** Every submit path lowers the busy flag again, so between events the
      form is never busy. */
  lemma {:induction false} RunKeepsIdle(f: Form, es: seq<Event>)
    requires !f.busy
    ensures !Run(f, es).busy
    decreases |es|
  {
    if |es| > 0 {
      RunKeepsIdle(Apply(f, es[0]).settled, es[1..]);
    }
  }

  /** Whatever the user does on a freshly mounted form, it is idle between
      events. */
  lemma InitialNeverBusy(es: seq<Event>)
    ensures !Run(Initial, es).busy
  {
    RunKeepsIdle(Initial, es);
  }

  /** Every call over any event sequence is made from an idle form and is the
      mode's own call with the credentials entered at that moment. */
  lemma {:induction false} RequestsMatchForm(f: Form, es: seq<Event>)
    ensures forall p :: p in Requests(f, es) ==> !p.0.busy && p.1 == CallFor(p.0)
    decreases |es|
  {
    if |es| > 0 {
      RequestsMatchForm(Apply(f, es[0]).settled, es[1..]);
    }
  }
}

=== FILE: forgot_password.dfy ===
/** The password-reset request form (src/components/ForgotPassword.tsx). */
module ForgotPasswordForm {
  import opened Forms

  datatype Form = Form(email: string, notice: Option<Notice>, busy: bool)

  const LinkSentText := "Passwort-Reset-Link wurde an deine E-Mail gesendet. Bitte überprüfe dein Postfach."
  const FailedText := "Ein Fehler ist aufgetreten."

  /** `handleSubmit`: clear the notice and raise the busy flag, request the
      reset mail for the entered address, report the outcome, lower the busy
      flag; the address is cleared only when the request succeeded. */
  function Submit(f: Form, o: Outcome<()>): (r: Handled<Form>)
    ensures r.awaiting == f.(notice := None, busy := true)
    ensures r.call == Some(RequestPasswordReset(f.email))
    ensures r.effect == NoEffect
    ensures !r.settled.busy
    ensures r.settled.notice.Some?
    ensures r.settled.notice.value.tone == Success <==> o.Ok?
    ensures o.Err? ==> r.settled.notice.value.text == o.message
    ensures o.Ok? ==> r.settled.notice.value.text == LinkSentText
    ensures o.Threw? ==> r.settled.notice.value.text == FailedText
    ensures r.settled.email == if o.Ok? then "" else f.email
  {
    var awaiting := f.(notice := None, busy := true);
    var email := if o.Ok? then "" else f.email;
    Handled(awaiting, Some(RequestPasswordReset(f.email)),
            awaiting.(email := email, notice := Some(Report(o, LinkSentText, FailedText)), busy := false),
            NoEffect)
  }

  /** A failed request can be resubmitted unchanged: it asks for the same
      address again. */
  lemma FailureAllowsResubmit(f: Form, o: Outcome<()>, o': Outcome<()>)
    requires !o.Ok?
    ensures Submit(Submit(f, o).settled, o').call == Submit(f, o').call
  {
  }

  /** After a success the next submit, unless the address is re-entered,
      requests a reset for the empty address. */
  lemma SuccessClearsAddress(f: Form, o': Outcome<()>)
    ensures Submit(Submit(f, Ok(())).settled, o').call == Some(RequestPasswordReset(""))
  {
  }

  /** User events reaching the form. */
  datatype Event = EmailTyped(email: string) | Submitted(outcome: Outcome<()>)

  /** One event handled as the form allows it: the field and the submit
      button are disabled while busy, so an event then does nothing. */
  function Apply(f: Form, e: Event): (r: Handled<Form>)
    ensures r.call.Some? <==> !f.busy && e.Submitted?
    ensures r.call.Some? ==> r.call == Some(RequestPasswordReset(f.email))
    ensures f.busy ==> r.settled == f && r.call.None?
    ensures !f.busy && e.Submitted? ==> r == Submit(f, e.outcome)
    ensures !f.busy && e.EmailTyped? ==> r.settled == f.(email := e.email)
  {
    if f.busy then Handled(f, None, f, NoEffect)
    else match e
      case EmailTyped(v) => var g := f.(email := v); Handled(g, None, g, NoEffect)
      case Submitted(o) => Submit(f, o)
  }

  /** The state after a sequence of events, each settling before the next. */
  function Run(f: Form, es: seq<Event>): Form
    decreases |es|
  {
    if |es| == 0 then f else Run(Apply(f, es[0]).settled, es[1..])
  }

  /** The provider calls a sequence of events issues, in order, each paired
      with the form as it stood when the call was made. */
  function Requests(f: Form, es: seq<Event>): seq<(Form, Call)>
    decreases |es|
  {
    if |es| == 0 then []
    else
      var h := Apply(f, es[0]);
      (if h.call.Some? then [(f, h.call.value)] else []) + Requests(h.settled, es[1..])
  }

  /** Every submit path lowers the busy flag again, so between events the
      form is never busy. */
  lemma {:induction false} RunKeepsIdle(f: Form, es: seq<Event>)
    requires !f.busy
    ensures !Run(f, es).busy
    decreases |es|
  {
    if |es| > 0 {
      RunKeepsIdle(Apply(f, es[0]).settled, es[1..]);
    }
  }

  /** Every call over any event sequence is made from an idle form and asks
      for a reset of the address entered at that moment. */
  lemma {:induction false} RequestsMatchForm(f: Form, es: seq<Event>)
    ensures forall p :: p in Requests(f, es) ==> !p.0.busy && p.1 == RequestPasswordReset(p.0.email)
    decreases |es|
  {
    if |es| > 0 {
      RequestsMatchForm(Apply(f, es[0]).settled, es[1..]);
    }
  }
}

=== FILE: forms.dfy ===
/** Vocabulary shared by every form of the authentication screens: the inline
    notice a form shows, the outcome of an awaited identity-provider call, the
    calls themselves, and the shape of one handled UI event. */
module Forms {

  datatype Option<+T> = None | Some(value: T)

  /** The two kinds of inline notice a form can show. */
  datatype Tone = Error | Success

  /** The `{ type, text }` notice a form renders below its fields. */
  datatype Notice = Notice(tone: Tone, text: string)

  /** What an awaited provider call produced: a value, an error reported by the
      provider with its own message text, or an exception thrown by the call. */
  datatype Outcome<+T> = Ok(data: T) | Err(message: string) | Threw

  /** The provider operations a handler can invoke, with their arguments.
      The provider itself is not modelled: only which call is made, and with
      what, is observable here. */
  datatype Call =
    | SignIn(email: string, password: string)
    | SignUp(email: string, password: string)
    | RequestPasswordReset(email: string)
    | UpdatePassword(newPassword: string)
    | EnrollTotp
    | VerifyTotp(factorId: string, code: string)
    | UnenrollFactor(factorId: string)

  /** Work a handler leaves behind after it settles: reloading the factor list,
      the same after a delay followed by closing the dialog, or navigating to
      the start page after a delay. Timers and navigation are not modelled,
      only the request. */
  datatype Effect = NoEffect | ReloadFactors | ReloadFactorsAndClose | RedirectHome

  /** One handled event: the state while the provider call is outstanding, the
      call issued (None when the handler returned before calling), the state
      once the call has settled, and the deferred effect requested. When no
      call is issued, `awaiting` and `settled` coincide. */
  datatype Handled<S> = Handled(awaiting: S, call: Option<Call>, settled: S, effect: Effect)

  /** The notice most handlers set once their call has settled: the provider's
      own text on a reported error, a fixed text on success, and a fixed
      fallback text when the call threw. */
  function Report<T>(o: Outcome<T>, success: string, fallback: string): (n: Notice)
    ensures n.tone == Success <==> o.Ok?
    ensures o.Err? ==> n.text == o.message
    ensures o.Ok? ==> n.text == success
    ensures o.Threw? ==> n.text == fallback
  {
    match o
    case Ok(_) => Notice(Success, success)
    case Err(m) => Notice(Error, m)
    case Threw => Notice(Error, fallback)
  }

  /** Number of UTF-16 code units needed for `s`, which is what a JavaScript
      string's `length` counts: a character outside the Basic Multilingual
      Plane takes a surrogate pair. */
  function Utf16Length(s: string): (n: nat)
    ensures |s| <= n <= 2 * |s|
    ensures (forall i :: 0 <= i < |s| ==> s[i] as int < 0x1_0000) ==> n == |s|
  {
    if |s| == 0 then 0
    else (if s[0] as int < 0x1_0000 then 1 else 2) + Utf16Length(s[1..])
  }

  /** The length of a concatenation is the sum of the lengths; with the
      single-character case this fixes the value of every string. */
  lemma {:induction false} Utf16LengthOfConcat(a: string, b: string)
    ensures Utf16Length(a + b) == Utf16Length(a) + Utf16Length(b)
  {
    if |a| == 0 {
      assert a + b == b;
    } else {
      assert (a + b)[0] == a[0];
      assert (a + b)[1..] == a[1..] + b;
      Utf16LengthOfConcat(a[1..], b);
    }
  }

  /** A single character takes two code units exactly when it lies outside
      the Basic Multilingual Plane. */
  lemma Utf16LengthOfChar(c: char)
    ensures Utf16Length([c]) == if c as int < 0x1_0000 then 1 else 2
  {
    assert [c][1..] == "";
  }
}

=== FILE: mfa_setup.dfy ===
/** The two-factor dialog (src/components/MFASetup.tsx): a list of enrolled
    TOTP factors with a confirm-gated removal, and, when none is enrolled, a
    two-step machine that first asks the provider for a new factor (secret
    and QR code) and then verifies a six-digit code against it. */
module MfaSetup {
  import opened Forms
  import TotpCode

  datatype Stage = SetupStage | VerifyStage

  /** An enrolled factor as listed by the provider. */
  datatype Factor = Factor(id: string)

  /** What a successful enrolment returns: the pending factor's id and the
      provisioning secret with its QR-code rendering. */
  datatype Enrollment = Enrollment(id: string, secret: string, qrCode: string)

  /** The list-factors reply; its `totp` member may be missing. */
  datatype FactorList = FactorList(totp: Option<seq<Factor>>)

  /** The dialog's state. */
  datatype Dialog = Dialog(qrCode: string, secret: string, factorId: string, code: string,
                           stage: Stage, notice: Option<Notice>, busy: bool, factors: seq<Factor>)

  const Initial := Dialog("", "", "", "", SetupStage, None, false, [])

  const EnrollFailedText := "Fehler beim Einrichten der 2FA."
  const InvalidCodeText := "Ungültiger Code. Bitte versuche es erneut."
  const EnabledText := "2FA erfolgreich aktiviert!"
  const VerifyFailedText := "Fehler beim Verifizieren."
  const DisabledText := "2FA deaktiviert."
  const DisableFailedText := "Fehler beim Deaktivieren."

  /** `loadMFAFactors`: only a reply without error and with data replaces the
      list (by its TOTP factors, or by nothing when it has none); anything
      else keeps the list as it was. Nothing else changes. */
  function FactorsLoaded(d: Dialog, o: Outcome<Option<FactorList>>): (r: Dialog)
    ensures r == d.(factors := r.factors)
    ensures !(o.Ok? && o.data.Some?) ==> r.factors == d.factors
    ensures o.Ok? && o.data.Some? && o.data.value.totp.Some? ==> r.factors == o.data.value.totp.value
    ensures o.Ok? && o.data.Some? && o.data.value.totp.None? ==> r.factors == []
  {
    match o
    case Ok(Some(FactorList(Some(fs)))) => d.(factors := fs)
    case Ok(Some(FactorList(None))) => d.(factors := [])
    case _ => d
  }

  /** `handleEnrollMFA`: clear the notice and raise the busy flag, request a
      new TOTP factor, and on success move to the verify step holding its id,
      secret and QR code; on failure stay in the current step with an error
      notice. The busy flag is lowered on every path. */
  function Enroll(d: Dialog, o: Outcome<Option<Enrollment>>): (r: Handled<Dialog>)
    ensures r.awaiting == d.(notice := None, busy := true)
    ensures r.call == Some(EnrollTotp) && r.effect == NoEffect
    ensures !r.settled.busy
    ensures r.settled.code == d.code && r.settled.factors == d.factors
    ensures o.Ok? && o.data.Some? ==>
              && r.settled.stage == VerifyStage
              && r.settled.factorId == o.data.value.id
              && r.settled.secret == o.data.value.secret
              && r.settled.qrCode == o.data.value.qrCode
              && r.settled.notice == None
    ensures !(o.Ok? && o.data.Some?) ==>
              && r.settled.stage == d.stage
              && r.settled.factorId == d.factorId
              && r.settled.secret == d.secret
              && r.settled.qrCode == d.qrCode
    ensures o.Err? ==> r.settled.notice == Some(Notice(Error, o.message))
    ensures o.Threw? ==> r.settled.notice == Some(Notice(Error, EnrollFailedText))
    ensures o.Ok? && o.data.None? ==> r.settled.notice == None
  {
    var awaiting := d.(notice := None, busy := true);
    var settled :=
      match o
      case Ok(Some(e)) =>
        awaiting.(qrCode := e.qrCode, secret := e.secret, factorId := e.id, stage := VerifyStage, busy := false)
      case Ok(None) => awaiting.(busy := false)
      case Err(m) => awaiting.(notice := Some(Notice(Error, m)), busy := false)
      case Threw => awaiting.(notice := Some(Notice(Error, EnrollFailedText)), busy := false);
    Handled(awaiting, Some(EnrollTotp), settled, NoEffect)
  }

  /** The code field's `onChange`: only a well-formed code is ever stored. */
  function CodeTyped(d: Dialog, raw: string): (r: Dialog)
    ensures TotpCode.IsCode(r.code)
    ensures r == d.(code := r.code)
    ensures TotpCode.IsCode(raw) ==> r.code == raw
  {
    TotpCode.SanitiseFixesExactlyCodes(raw);
    d.(code := TotpCode.Sanitise(raw))
  }

  /** `handleVerifyMFA`: clear the notice and raise the busy flag, submit the
      entered code for the pending factor, and report. A rejected code gets a
      fixed notice whatever the provider said, and the step, the factor and
      its secret stay as they were, so the user can retry. Success requests
      the delayed factor reload and close. */
  function Verify(d: Dialog, o: Outcome<()>): (r: Handled<Dialog>)
    ensures r.awaiting == d.(notice := None, busy := true)
    ensures r.call == Some(VerifyTotp(d.factorId, d.code))
    ensures r.settled == d.(notice := r.settled.notice, busy := false)
    ensures r.settled.notice.Some?
    ensures r.settled.notice.value.tone == Success <==> o.Ok?
    ensures o.Err? ==> r.settled.notice.value.text == InvalidCodeText
    ensures o.Ok? ==> r.settled.notice.value.text == EnabledText
    ensures o.Threw? ==> r.settled.notice.value.text == VerifyFailedText
    ensures r.effect == ReloadFactorsAndClose <==> o.Ok?
    ensures r.effect != ReloadFactorsAndClose ==> r.effect == NoEffect
  {
    var awaiting := d.(notice := None, busy := true);
    var notice :=
      match o
      case Ok(_) => Notice(Success, EnabledText)
      case Err(_) => Notice(Error, InvalidCodeText)
      case Threw => Notice(Error, VerifyFailedText);
    Handled(awaiting, Some(VerifyTotp(d.factorId, d.code)), awaiting.(notice := Some(notice), busy := false),
            if o.Ok? then ReloadFactorsAndClose else NoEffect)
  }

  /** A rejected code can be retried against the same pending factor. */
  lemma RetryTargetsSameFactor(d: Dialog, m: string, raw: string, o: Outcome<()>)
    ensures Verify(CodeTyped(Verify(d, Err(m)).settled, raw), o).call
            == Some(VerifyTotp(d.factorId, TotpCode.Sanitise(raw)))
    ensures Verify(d, Err(m)).settled.stage == d.stage
  {
  }

  /** `handleUnenroll`: when the user declines the confirmation nothing
      happens. Otherwise raise the busy flag (the previous notice stays up),
      ask the provider to remove the factor and report; only a success
      requests a reload of the factor list, which is what eventually removes
      the factor from the dialog. */
  function Unenroll(d: Dialog, factorId: string, confirmed: bool, o: Outcome<()>): (r: Handled<Dialog>)
    ensures !confirmed ==> r.awaiting == d && r.settled == d && r.call == None && r.effect == NoEffect
    ensures confirmed ==> r.awaiting == d.(busy := true) && r.call == Some(UnenrollFactor(factorId))
    ensures confirmed ==> r.settled == d.(notice := r.settled.notice, busy := false)
    ensures confirmed ==> r.settled.notice.Some? && (r.settled.notice.value.tone == Success <==> o.Ok?)
    ensures confirmed && o.Err? ==> r.settled.notice.value.text == o.message
    ensures confirmed && o.Ok? ==> r.settled.notice.value.text == DisabledText
    ensures confirmed && o.Threw? ==> r.settled.notice.value.text == DisableFailedText
    ensures r.effect == ReloadFactors <==> confirmed && o.Ok?
    ensures r.effect != ReloadFactors ==> r.effect == NoEffect
  {
    if !confirmed then Handled(d, None, d, NoEffect)
    else
      var awaiting := d.(busy := true);
      Handled(awaiting, Some(UnenrollFactor(factorId)),
              awaiting.(notice := Some(Report(o, DisabledText, DisableFailedText)), busy := false),
              if o.Ok? then ReloadFactors else NoEffect)
  }

  /** What the dialog renders: the status list whenever a factor exists,
      otherwise the current step. */
  datatype View = StatusView | SetupView | VerifyView

  function ViewOf(d: Dialog): (v: View)
    ensures v == StatusView <==> |d.factors| > 0
    ensures v == SetupView <==> |d.factors| == 0 && d.stage == SetupStage
    ensures v == VerifyView <==> |d.factors| == 0 && d.stage == VerifyStage
  {
    if |d.factors| > 0 then StatusView
    else match d.stage
      case SetupStage => SetupView
      case VerifyStage => VerifyView
  }

  /** User and provider events reaching the dialog. */
  datatype Event =
    | Loaded(listed: Outcome<Option<FactorList>>)
    | EnrollPressed(enrolled: Outcome<Option<Enrollment>>)
    | CodeEntered(raw: string)
    | VerifySubmitted(verified: Outcome<()>)
    | UnenrollPressed(index: nat, confirmed: bool, removed: Outcome<()>)

  /** Whether the control an event comes from is on screen and usable: each
      control exists only in its view and is disabled while busy (the code
      field and the verify button in the verify step, the enrol button in the
      setup step, one removal button per listed factor). A list reply is not
      a control and may arrive at any time. */
  predicate Enabled(d: Dialog, e: Event) {
    && !d.busy
    && match e
       case Loaded(_) => true
       case EnrollPressed(_) => ViewOf(d) == SetupView
       case CodeEntered(_) => ViewOf(d) == VerifyView
       case VerifySubmitted(_) => ViewOf(d) == VerifyView
       case UnenrollPressed(i, _, _) => ViewOf(d) == StatusView && i < |d.factors|
  }

  /** One event handled as the dialog allows it: an event for a control that
      is not there, or is disabled, does nothing; an enabled one runs its
      handler. */
  function Apply(d: Dialog, e: Event): (r: Handled<Dialog>)
    ensures !e.Loaded? && !Enabled(d, e) ==> r.settled == d && r.call.None?
    ensures e.Loaded? || e.CodeEntered? ==> r.call.None?
    ensures r.call.Some? ==> Enabled(d, e)
    ensures r.call == Some(EnrollTotp) <==> Enabled(d, e) && e.EnrollPressed?
    ensures r.call == Some(VerifyTotp(d.factorId, d.code)) <==> Enabled(d, e) && e.VerifySubmitted?
    ensures r.call.Some? && r.call.value.UnenrollFactor? ==>
              && e.UnenrollPressed? && e.confirmed
              && ViewOf(d) == StatusView && Factor(r.call.value.factorId) in d.factors
    ensures e.Loaded? ==> r.settled == FactorsLoaded(d, e.listed)
    ensures Enabled(d, e) && e.EnrollPressed? ==> r == Enroll(d, e.enrolled)
    ensures Enabled(d, e) && e.VerifySubmitted? ==> r == Verify(d, e.verified)
    ensures Enabled(d, e) && e.CodeEntered? ==> r.settled == CodeTyped(d, e.raw)
    ensures Enabled(d, e) && e.UnenrollPressed? ==>
              r == Unenroll(d, d.factors[e.index].id, e.confirmed, e.removed)
  {
    var idle := Handled(d, None, d, NoEffect);
    match e
    case Loaded(o) =>
      var g := FactorsLoaded(d, o);
      Handled(g, None, g, NoEffect)
    case EnrollPressed(o) =>
      if Enabled(d, e) then Enroll(d, o) else idle
    case CodeEntered(raw) =>
      if Enabled(d, e) then
        var g := CodeTyped(d, raw);
        Handled(g, None, g, NoEffect)
      else idle
    case VerifySubmitted(o) =>
      if Enabled(d, e) then Verify(d, o) else idle
    case UnenrollPressed(i, confirmed, o) =>
      if Enabled(d, e) then Unenroll(d, d.factors[i].id, confirmed, o) else idle
  }

  /** The state after a sequence of events, each settling before the next. */
  function Run(d: Dialog, es: seq<Event>): Dialog
    decreases |es|
  {
    if |es| == 0 then d else Run(Apply(d, es[0]).settled, es[1..])
  }

  /** The provider calls a sequence of events issues, in order, each paired
      with the dialog as it stood when the call was made. */
  function Requests(d: Dialog, es: seq<Event>): seq<(Dialog, Call)>
    decreases |es|
  {
    if |es| == 0 then []
    else
      var h := Apply(d, es[0]);
      (if h.call.Some? then [(d, h.call.value)] else []) + Requests(h.settled, es[1..])
  }

  /** Between events the dialog is idle and its code field holds a
      well-formed code. */
  predicate Settled(d: Dialog) {
    !d.busy && TotpCode.IsCode(d.code)
  }

  /** Every handler path lowers the busy flag again and the field filter keeps
      the code well formed, so the dialog is settled after any event. */
  lemma ApplyKeepsSettled(d: Dialog, e: Event)
    requires Settled(d)
    ensures Settled(Apply(d, e).settled)
  {
  }

  lemma {:induction false} RunKeepsSettled(d: Dialog, es: seq<Event>)
    requires Settled(d)
    ensures Settled(Run(d, es))
    decreases |es|
  {
    if |es| > 0 {
      ApplyKeepsSettled(d, es[0]);
      RunKeepsSettled(Apply(d, es[0]).settled, es[1..]);
    }
  }

  /** Once in the verify step the dialog never leaves it and keeps the
      pending factor, its secret and its QR code: only enrolment changes
      them, and the enrol button is not shown in that step. A failed code
      therefore never loses the factor being verified. */
  lemma {:induction false} VerifyStageKeepsFactor(d: Dialog, es: seq<Event>)
    requires d.stage == VerifyStage
    ensures Run(d, es).stage == VerifyStage
    ensures Run(d, es).factorId == d.factorId
    ensures Run(d, es).secret == d.secret && Run(d, es).qrCode == d.qrCode
    decreases |es|
  {
    if |es| > 0 {
      var g := Apply(d, es[0]).settled;
      assert g.stage == VerifyStage && g.factorId == d.factorId;
      assert g.secret == d.secret && g.qrCode == d.qrCode;
      VerifyStageKeepsFactor(g, es[1..]);
    }
  }

  /** Only a list reply ever changes the factor list: removing a factor only
      requests a reload, so the status view stays up until the reply. */
  lemma {:induction false} OnlyListReplyChangesFactors(d: Dialog, es: seq<Event>)
    requires forall i :: 0 <= i < |es| ==> !es[i].Loaded?
    ensures Run(d, es).factors == d.factors
    decreases |es|
  {
    if |es| > 0 {
      var g := Apply(d, es[0]).settled;
      assert g.factors == d.factors;
      OnlyListReplyChangesFactors(g, es[1..]);
    }
  }

  /** Enrol, type a code with at least six digits (the field's pattern
      refuses to submit fewer), have it rejected, submit it again and have it
      accepted, which requests the delayed reload and close of the dialog,
      then receive a list reply naming exactly that factor: the dialog ends
      on the status view showing it, and the provider saw one enrolment and two
      verifications of the same factor with the sanitised code. */
  lemma EnrolRetryScenario(e: Enrollment, raw: string, m: string)
    requires |TotpCode.Digits(raw)| >= TotpCode.CodeLength
    ensures var es := [EnrollPressed(Ok(Some(e))), CodeEntered(raw), VerifySubmitted(Err(m)),
                       VerifySubmitted(Ok(())), Loaded(Ok(Some(FactorList(Some([Factor(e.id)])))))];
            && ViewOf(Run(Initial, es)) == StatusView
            && Run(Initial, es).factors == [Factor(e.id)]
            && Apply(Run(Initial, es[..3]), es[3]).effect == ReloadFactorsAndClose
            && var rs := Requests(Initial, es);
               && |rs| == 3
               && rs[0].1 == EnrollTotp
               && rs[1].1 == VerifyTotp(e.id, TotpCode.Sanitise(raw))
               && rs[2].1 == VerifyTotp(e.id, TotpCode.Sanitise(raw))
  {
    var es := [EnrollPressed(Ok(Some(e))), CodeEntered(raw), VerifySubmitted(Err(m)),
               VerifySubmitted(Ok(())), Loaded(Ok(Some(FactorList(Some([Factor(e.id)])))))];
    var code := TotpCode.Sanitise(raw);
    var d1 := Initial.(qrCode := e.qrCode, secret := e.secret, factorId := e.id, stage := VerifyStage);
    assert Apply(Initial, es[0]) == Handled(Initial.(busy := true), Some(EnrollTotp), d1, NoEffect);
    var d2 := d1.(code := code);
    assert Apply(d1, es[1]).settled == d2 && Apply(d1, es[1]).call == None;
    var d3 := d2.(notice := Some(Notice(Error, InvalidCodeText)));
    assert Apply(d2, es[2]).settled == d3 && Apply(d2, es[2]).call == Some(VerifyTotp(e.id, code));
    var d4 := d3.(notice := Some(Notice(Success, EnabledText)));
    assert Apply(d3, es[3]).settled == d4 && Apply(d3, es[3]).call == Some(VerifyTotp(e.id, code));
    var d5 := d4.(factors := [Factor(e.id)]);
    assert Apply(d4, es[4]).settled == d5 && Apply(d4, es[4]).call == None;
    assert es[4..][1..] == [];
    assert es[3..][1..] == es[4..];
    assert es[2..][1..] == es[3..];
    assert es[1..][1..] == es[2..];
    assert Run(d4, es[4..]) == d5 && Requests(d4, es[4..]) == [];
    assert Run(d3, es[3..]) == d5 && Requests(d3, es[3..]) == [(d3, VerifyTotp(e.id, code))];
    assert Run(d2, es[2..]) == d5
        && Requests(d2, es[2..]) == [(d2, VerifyTotp(e.id, code)), (d3, VerifyTotp(e.id, code))];
    assert Run(d1, es[1..]) == d5 && Requests(d1, es[1..]) == Requests(d2, es[2..]);
    assert Requests(Initial, es) == [(Initial, EnrollTotp)] + Requests(d1, es[1..]);
    var p := es[..3];
    assert p[1..][1..][1..] == [];
    assert Run(Initial, p) == d3 by {
      assert p[0] == es[0] && p[1..][0] == es[1] && p[1..][1..][0] == es[2];
      assert Run(d2, p[1..][1..]) == d3;
      assert Run(d1, p[1..]) == d3;
    }
  }
}

=== FILE: reset_password.dfy ===
/** The set-new-password page reached from the emailed reset link
    (src/components/ResetPassword.tsx). The link counts as valid exactly when
    the provider reports a live session on mount; the password form is shown
    only then, and a submit validates before calling the provider. */
module ResetPassword {
  import opened Forms

  datatype Form = Form(newPassword: string, confirmPassword: string, notice: Option<Notice>,
                       busy: bool, linkValid: bool)

  const Initial := Form("", "", None, false, false)

  /** Shortest password the page accepts, in UTF-16 code units. */
  const MinLength: nat := 6

  const InvalidLinkText := "Ungültiger oder abgelaufener Reset-Link. Bitte fordere einen neuen an."
  const MismatchText := "Passwörter stimmen nicht überein."
  const TooShortText := "Passwort muss mindestens 6 Zeichen lang sein."
  const ChangedText := "Passwort erfolgreich geändert! Du wirst in 2 Sekunden weitergeleitet..."
  const FailedText := "Ein Fehler ist aufgetreten."

  /** The mount-time session probe: a live session marks the link valid; its
      absence reports an invalid or expired link and leaves the flag alone. */
  function SessionProbed(f: Form, sessionPresent: bool): (r: Form)
    ensures r.linkValid == (sessionPresent || f.linkValid)
    ensures sessionPresent ==> r.notice == f.notice
    ensures !sessionPresent ==> r.notice == Some(Notice(Error, InvalidLinkText))
    ensures r.newPassword == f.newPassword && r.confirmPassword == f.confirmPassword && r.busy == f.busy
  {
    if sessionPresent then f.(linkValid := true)
    else f.(notice := Some(Notice(Error, InvalidLinkText)))
  }

  /** The verdict of the submit-time checks, in the order they are made. */
  datatype Verdict = Mismatch | TooShort | Acceptable

  function Validate(newPassword: string, confirmPassword: string): (v: Verdict)
    ensures v == Acceptable <==> newPassword == confirmPassword && Utf16Length(newPassword) >= MinLength
    ensures v == Mismatch <==> newPassword != confirmPassword
    ensures v == TooShort <==> newPassword == confirmPassword && Utf16Length(newPassword) < MinLength
  {
    if newPassword != confirmPassword then Mismatch
    else if Utf16Length(newPassword) < MinLength then TooShort
    else Acceptable
  }

  /** `handleSubmit`: a rejected pair is reported at once without a call; an
      accepted one raises the busy flag, asks the provider to update the
      password, reports the outcome and lowers the flag. Success also
      requests the delayed redirect to the start page. */
  function Submit(f: Form, o: Outcome<()>): (r: Handled<Form>)
    ensures r.call.Some? <==> Validate(f.newPassword, f.confirmPassword) == Acceptable
    ensures r.call.Some? ==> r.call.value == UpdatePassword(f.newPassword)
    ensures r.settled.newPassword == f.newPassword && r.settled.confirmPassword == f.confirmPassword
    ensures r.settled.linkValid == f.linkValid
    ensures r.settled.notice.Some?
    ensures r.call.None? ==> r.awaiting == r.settled && r.settled.busy == f.busy && r.effect == NoEffect
    ensures r.call.None? && f.newPassword != f.confirmPassword ==> r.settled.notice.value == Notice(Error, MismatchText)
    ensures r.call.None? && f.newPassword == f.confirmPassword ==> r.settled.notice.value == Notice(Error, TooShortText)
    ensures r.call.Some? ==> r.awaiting == f.(notice := None, busy := true) && !r.settled.busy
    ensures r.call.Some? ==> (r.settled.notice.value.tone == Success <==> o.Ok?)
    ensures r.call.Some? && o.Err? ==> r.settled.notice.value.text == o.message
    ensures r.call.Some? && o.Ok? ==> r.settled.notice.value.text == ChangedText
    ensures r.call.Some? && o.Threw? ==> r.settled.notice.value.text == FailedText
    ensures r.effect == RedirectHome <==> r.call.Some? && o.Ok?
  {
    match Validate(f.newPassword, f.confirmPassword)
    case Mismatch =>
      var g := f.(notice := Some(Notice(Error, MismatchText)));
      Handled(g, None, g, NoEffect)
    case TooShort =>
      var g := f.(notice := Some(Notice(Error, TooShortText)));
      Handled(g, None, g, NoEffect)
    case Acceptable =>
      var awaiting := f.(notice := None, busy := true);
      Handled(awaiting, Some(UpdatePassword(f.newPassword)),
              awaiting.(notice := Some(Report(o, ChangedText, FailedText)), busy := false),
              if o.Ok? then RedirectHome else NoEffect)
  }

  /** A mismatch is reported even when the password is also too short. */
  lemma MismatchCheckedFirst(f: Form, o: Outcome<()>)
    requires f.newPassword != f.confirmPassword
    ensures Submit(f, o).settled.notice == Some(Notice(Error, MismatchText))
    ensures Submit(f, o).call == None
  {
  }

  /** What the page renders: the link-status card, or the password form. */
  datatype Screen = LinkStatus | PasswordForm

  function ScreenOf(f: Form): (v: Screen)
    ensures v == PasswordForm <==> f.linkValid
  {
    if f.linkValid then PasswordForm else LinkStatus
  }

  /** User and provider events reaching the page. */
  datatype Event =
    | Probed(sessionPresent: bool)
    | NewPasswordTyped(value: string)
    | ConfirmTyped(value: string)
    | Submitted(outcome: Outcome<()>)

  /** One event handled as the page allows it: the fields and the submit
      button exist only on the password form, so on the link-status card
      typing and submitting do nothing. */
  function Apply(f: Form, e: Event): (r: Handled<Form>)
    ensures r.call.Some? <==> ScreenOf(f) == PasswordForm && !f.busy && e.Submitted?
                              && Validate(f.newPassword, f.confirmPassword) == Acceptable
    ensures (ScreenOf(f) == LinkStatus || f.busy) && !e.Probed? ==> r.settled == f && r.call.None?
    ensures e.Probed? ==> r.settled == SessionProbed(f, e.sessionPresent)
    ensures ScreenOf(f) == PasswordForm && !f.busy && e.Submitted? ==> r == Submit(f, e.outcome)
    ensures ScreenOf(f) == PasswordForm && !f.busy && e.NewPasswordTyped? ==> r.settled == f.(newPassword := e.value)
    ensures ScreenOf(f) == PasswordForm && !f.busy && e.ConfirmTyped? ==> r.settled == f.(confirmPassword := e.value)
  {
    match e
    case Probed(present) =>
      var g := SessionProbed(f, present);
      Handled(g, None, g, NoEffect)
    case NewPasswordTyped(v) =>
      var g := if ScreenOf(f) == PasswordForm && !f.busy then f.(newPassword := v) else f;
      Handled(g, None, g, NoEffect)
    case ConfirmTyped(v) =>
      var g := if ScreenOf(f) == PasswordForm && !f.busy then f.(confirmPassword := v) else f;
      Handled(g, None, g, NoEffect)
    case Submitted(o) =>
      if ScreenOf(f) == PasswordForm && !f.busy then Submit(f, o) else Handled(f, None, f, NoEffect)
  }

  /** The state after a sequence of events, each settling before the next. */
  function Run(f: Form, es: seq<Event>): Form
    decreases |es|
  {
    if |es| == 0 then f else Run(Apply(f, es[0]).settled, es[1..])
  }

  /** The provider calls a sequence of events issues, in order, each paired
      with the page state as it stood when the call was made. */
  function Requests(f: Form, es: seq<Event>): seq<(Form, Call)>
    decreases |es|
  {
    if |es| == 0 then []
    else
      var h := Apply(f, es[0]);
      (if h.call.Some? then [(f, h.call.value)] else []) + Requests(h.settled, es[1..])
  }

  /** Whatever the user does, every password update the page ever requests
      is made from the shown, idle password form, and carries the entered
      password, which matched its confirmation and was long enough. */
  lemma {:induction false} RequestsAreValidUpdates(f: Form, es: seq<Event>)
    ensures forall p :: p in Requests(f, es) ==>
              && p.0.linkValid
              && !p.0.busy
              && p.0.newPassword == p.0.confirmPassword
              && Utf16Length(p.0.newPassword) >= MinLength
              && p.1 == UpdatePassword(p.0.newPassword)
    decreases |es|
  {
    if |es| > 0 {
      RequestsAreValidUpdates(Apply(f, es[0]).settled, es[1..]);
    }
  }

  /** Without a probe that found a session, the link stays invalid and no
      event sequence reaches the provider. */
  lemma {:induction false} NoUpdateWithoutSession(f: Form, es: seq<Event>)
    requires !f.linkValid
    requires forall i :: 0 <= i < |es| ==> es[i] != Probed(true)
    ensures !Run(f, es).linkValid
    ensures Requests(f, es) == []
    decreases |es|
  {
    if |es| > 0 {
      var g := Apply(f, es[0]).settled;
      assert !g.linkValid;
      NoUpdateWithoutSession(g, es[1..]);
    }
  }

  /** A freshly mounted page whose probe finds no session never reaches the
      provider, whatever the user does afterwards. */
  lemma NoUpdateFromExpiredLink(es: seq<Event>)
    requires forall i :: 0 <= i < |es| ==> es[i] != Probed(true)
    ensures ScreenOf(Run(Initial, [Probed(false)] + es)) == LinkStatus
    ensures Requests(Initial, [Probed(false)] + es) == []
  {
    var f := SessionProbed(Initial, false);
    assert ([Probed(false)] + es)[0] == Probed(false);
    assert ([Probed(false)] + es)[1..] == es;
    NoUpdateWithoutSession(f, es);
  }

  /** Once a session was found the form stays reachable: nothing on the page
      invalidates the link again. */
  lemma {:induction false} ValidLinkStaysValid(f: Form, es: seq<Event>)
    requires f.linkValid
    ensures Run(f, es).linkValid
    decreases |es|
  {
    if |es| > 0 {
      ValidLinkStaysValid(Apply(f, es[0]).settled, es[1..]);
    }
  }
}

=== FILE: totp_code.dfy ===
/** The verification-code input of the two-factor dialog: whatever is typed is
    reduced to its decimal digits and cut to the six a TOTP code has
    (src/components/MFASetup.tsx:166). */
module TotpCode {

  /** Digits in a time-based one-time password. */
  const CodeLength: nat := 6

  /** The characters the regular expression `\d` matches: ASCII `0`..`9`. */
  predicate IsDigit(c: char) {
    '0' <= c <= '9'
  }

  predicate AllDigits(s: string) {
    forall i :: 0 <= i < |s| ==> IsDigit(s[i])
  }

  /** A string the input field can hold after sanitising. */
  predicate IsCode(s: string) {
    AllDigits(s) && |s| <= CodeLength
  }

  /** `s.replace(/\D/g, '')`: the subsequence of decimal digits of `s`. */
  function Digits(s: string): (r: string)
    ensures |r| <= |s|
    ensures AllDigits(r)
  {
    if |s| == 0 then ""
    else if IsDigit(s[0]) then [s[0]] + Digits(s[1..])
    else Digits(s[1..])
  }

  /** The field's `onChange` filter: digits only, at most six of them. */
  function Sanitise(s: string): (r: string)
    ensures IsCode(r)
    ensures r <= Digits(s)
    ensures |r| == if |Digits(s)| < CodeLength then |Digits(s)| else CodeLength
  {
    var d := Digits(s);
    if |d| <= CodeLength then d else d[..CodeLength]
  }

  /** Removing non-digits leaves a string of digits untouched. */
  lemma {:induction false} DigitsOfDigitString(s: string)
    requires AllDigits(s)
    ensures Digits(s) == s
  {
    if |s| > 0 {
      assert AllDigits(s[1..]) by {
        forall i | 0 <= i < |s[1..]| ensures IsDigit(s[1..][i]) {
          assert s[1..][i] == s[i + 1];
        }
      }
      DigitsOfDigitString(s[1..]);
      assert s == [s[0]] + s[1..];
    }
  }

  /** Digit extraction works piecewise, so `Digits` keeps exactly the digits of
      its input, in their original order. */
  lemma {:induction false} DigitsOfConcat(a: string, b: string)
    ensures Digits(a + b) == Digits(a) + Digits(b)
  {
    if |a| == 0 {
      assert a + b == b;
    } else {
      assert (a + b)[0] == a[0];
      assert (a + b)[1..] == a[1..] + b;
      DigitsOfConcat(a[1..], b);
    }
  }

  /** A single character survives exactly when it is a digit. */
  lemma DigitsOfChar(c: char)
    ensures Digits([c]) == if IsDigit(c) then [c] else ""
  {
    assert [c][1..] == "";
  }

  /** Typing the sanitised value back into the field changes nothing. */
  lemma SanitiseIdempotent(s: string)
    ensures Sanitise(Sanitise(s)) == Sanitise(s)
  {
    DigitsOfDigitString(Sanitise(s));
  }

  /** The values the filter leaves alone are exactly the well-formed codes. */
  lemma SanitiseFixesExactlyCodes(s: string)
    ensures Sanitise(s) == s <==> IsCode(s)
  {
    if IsCode(s) {
      DigitsOfDigitString(s);
    }
  }
}
